=== FILE: README.md ===
# Product catalog service — Dafny model

A model of the service layer of a product-catalog microservice: products with
their brand, category and images, and the brand and category services. The
four JPA repositories are a `Store` of four id-keyed tables; every service
call is a pure function from the store and its input to
`Result<(Store, Output), Error>`. A failed call returns no store, so the
caller keeps the old one: this stands for the `@Transactional` all-or-nothing
behaviour.

Files and modules:

- `wrappers.dfy` (`Wrappers`): `Option` for Java's nullable references, `Result` for a value or a thrown exception.
- `text.dfy` (`Text`): `String.trim()` and the "blank after trim" test.
- `catalog.dfy` (`Catalog`): the entities, the error kinds, the id-keyed tables (a row map plus the next IDENTITY value), and `Valid`, referential integrity of the store.
- `classification.dfy` (`Classification`): the logic that `BrandService` and `CategoryService` share line for line.
- `brand_service.dfy`, `category_service.dfy` (`BrandService`, `CategoryService`): that logic on the brand and category repositories. Deletion consults the products.
- `image_reconciler.dfy` (`ImageReconciler`): how a bulk product update reconciles the image list.
- `product_service.dfy` (`ProductService`): product create, update, delete and lookups, and the single-image operations.
- `catalog_integrity.dfy` (`CatalogIntegrity`): every successful mutating call keeps `Valid`.
- `scenarios.dfy` (`Scenarios`): concrete runs on small stores.

Representation choices:

- A product's image list is a sequence of slots. A slot is `Stored(id)`, which refers to a row of the image table, or `Fresh(description, data)`, a new image that has no id yet.
- JPA returns one managed object per id, so a product's list and the image table always show the same content for a stored image. Keeping that content only in the image table models this sharing.
- Because of that sharing, an update that lists one stored image twice writes it twice. The last occurrence wins (`OverwriteLastWins`).
- Brand and category are held on the product by id, as the foreign-key columns hold them.
- Nullable scalar fields are `Option`s, both on a stored product and in an update payload.
- The clock is an `Instant` parameter.
- Image content is an opaque byte sequence.

Behaviour of the code that the model keeps as written:

- `createProduct` sets the creation date but not the update date. The update date is whatever the client posted.
- `deleteProductImage` checks ownership by looking for the image in the product's list. It does not compare the image's owner column. It removes only the first occurrence, as `List.remove(Object)` does.
- A brand or category that is still referenced is refused with `BadRequest`.
- An image that is not in the product's list is reported as `NotFound`.
- `updateBrand` and `updateCategory` check neither blankness nor uniqueness. A rename can therefore create two rows with the same description (`Classification.UpdateMayDuplicate`).

## Model

| member | source | states |
|---|---|---|
| Text.Trim | src/main/java/com/bookbrew/product/service/service/CategoryService.java:67 | `String.trim`: the result is the slice of the input left after removing only characters at or below U+0020 from both ends, and it neither starts nor ends with such a character |
| Text.BlankIffAllStripped | src/main/java/com/bookbrew/product/service/service/CategoryService.java:67 | `description.trim().isEmpty()` holds exactly when every character is at or below U+0020, the empty string included |
| Classification.GetById | src/main/java/com/bookbrew/product/service/service/CategoryService.java:32-35 | succeeds exactly for a stored id and returns that row; otherwise NotFound for the given kind |
| Classification.GetAll | src/main/java/com/bookbrew/product/service/service/CategoryService.java:24-30 | fails NotFound exactly when the repository is empty; otherwise returns every row |
| Classification.Validate | src/main/java/com/bookbrew/product/service/service/CategoryService.java:66-73 | a null or blank description is BadRequest before any uniqueness lookup; a description equal to a stored one is DuplicateName; otherwise passes |
| Classification.Create | src/main/java/com/bookbrew/product/service/service/CategoryService.java:37-40 | succeeds exactly when validation passes; the table then gains exactly the new row under an id at or above the table's next IDENTITY value, so one never handed out before, and the next value moves past it |
| Classification.Update | src/main/java/com/bookbrew/product/service/service/CategoryService.java:42-52 | NotFound for an unknown id; a null description or status keeps the stored value, a present one replaces it; only that row changes |
| Classification.Delete | src/main/java/com/bookbrew/product/service/service/CategoryService.java:54-64 | NotFound for an unknown id; BadRequest and no change while referenced; otherwise exactly that row is removed |
| Classification.CreateKeepsUnique | src/main/java/com/bookbrew/product/service/service/CategoryService.java:70-72 | the uniqueness check keeps descriptions pairwise distinct across a create |
| Classification.UpdateMayDuplicate | src/main/java/com/bookbrew/product/service/service/CategoryService.java:42-52 | an update can rename a row to another row's description, breaking uniqueness |
| BrandService.GetBrandById | src/main/java/com/bookbrew/product/service/service/BrandService.java:32-35 | the stored brand for a present id, NotFound(brand) otherwise |
| BrandService.GetAllBrands | src/main/java/com/bookbrew/product/service/service/BrandService.java:24-30 | NotFound exactly when no brand is stored, otherwise all brands |
| BrandService.CreateBrand | src/main/java/com/bookbrew/product/service/service/BrandService.java:37-40 | blank (null or empty after trim) is BadRequest; an existing equal description is DuplicateName; otherwise the store gains exactly that brand and nothing else changes |
| BrandService.UpdateBrand | src/main/java/com/bookbrew/product/service/service/BrandService.java:42-52 | NotFound for an unknown id; null-means-unchanged for description and status; no validation; only that brand changes |
| BrandService.DeleteBrand | src/main/java/com/bookbrew/product/service/service/BrandService.java:54-64 | NotFound for an unknown id; BadRequest while any product references the brand; otherwise only that brand is removed |
| CategoryService.GetCategoryById | src/main/java/com/bookbrew/product/service/service/CategoryService.java:32-35 | the stored category for a present id, NotFound(category) otherwise |
| CategoryService.GetAllCategories | src/main/java/com/bookbrew/product/service/service/CategoryService.java:24-30 | NotFound exactly when no category is stored, otherwise all categories |
| CategoryService.CreateCategory | src/main/java/com/bookbrew/product/service/service/CategoryService.java:37-40 | blank is BadRequest before the uniqueness check; an existing equal description is DuplicateName; otherwise the store gains exactly that category and nothing else changes |
| CategoryService.UpdateCategory | src/main/java/com/bookbrew/product/service/service/CategoryService.java:42-52 | NotFound for an unknown id; null-means-unchanged for description and status; no validation; only that category changes |
| CategoryService.DeleteCategory | src/main/java/com/bookbrew/product/service/service/CategoryService.java:54-64 | NotFound for an unknown id; BadRequest while any product references the category; otherwise only that category is removed |
| ImageReconciler.SubmittedIds | src/main/java/com/bookbrew/product/service/service/ProductService.java:122-125 | an id is collected exactly when some submitted image carries it |
| ImageReconciler.Kept | src/main/java/com/bookbrew/product/service/service/ProductService.java:127-129 | an entry is kept exactly when it is current and not a stored image whose id was submitted |
| ImageReconciler.KeptDistributes | src/main/java/com/bookbrew/product/service/service/ProductService.java:127-129 | the filter works entry by entry, so kept entries stay in their original order |
| ImageReconciler.SlotFor | src/main/java/com/bookbrew/product/service/service/ProductService.java:131-146 | a submitted image with an id becomes a reference to that stored image; one without becomes a new image with the submitted description and data |
| ImageReconciler.Slots | src/main/java/com/bookbrew/product/service/service/ProductService.java:131-147 | one entry per submitted image, in submission order |
| ImageReconciler.Overwrite | src/main/java/com/bookbrew/product/service/service/ProductService.java:131-139 | a failed lookup is NotFound(image); the image table keeps its set of ids |
| ImageReconciler.OverwriteFailsIffUnresolved | src/main/java/com/bookbrew/product/service/service/ProductService.java:133-135 | the overwrite fails exactly when some submitted id has no stored image |
| ImageReconciler.OverwriteLeavesOthers | src/main/java/com/bookbrew/product/service/service/ProductService.java:131-139 | a stored image whose id is not submitted is unchanged |
| ImageReconciler.OverwriteLastWins | src/main/java/com/bookbrew/product/service/service/ProductService.java:136-138 | a submitted image's description and data overwrite the stored ones unconditionally, null included, and it is attached to the product; with repeated ids the last occurrence wins |
| ImageReconciler.OverwriteTwice | src/main/java/com/bookbrew/product/service/service/ProductService.java:131-139 | overwriting again with the same list changes nothing |
| ImageReconciler.Reconcile | src/main/java/com/bookbrew/product/service/service/ProductService.java:119-151 | fails NotFound(image) exactly when a submitted id is not stored; otherwise the list starts with the kept current entries in order and ends with one entry per submitted image in order, and the image table keeps its ids |
| ImageReconciler.ReconcileKeepsEveryEntry | src/main/java/com/bookbrew/product/service/service/ProductService.java:127-150 | additive keep: every current entry, and so every currently owned image id, is still in the result |
| ImageReconciler.ReconcileResolves | src/main/java/com/bookbrew/product/service/service/ProductService.java:131-150 | every stored entry of the result names a stored image when every current one did |
| ImageReconciler.ReconcileImageTable | src/main/java/com/bookbrew/product/service/service/ProductService.java:131-139 | images not submitted keep their rows; a submitted one ends with its last occurrence's description and data, owned by the product |
| ImageReconciler.ReconcileResubmitted | src/main/java/com/bookbrew/product/service/service/ProductService.java:119-151 | submitting again a list whose every image carries an id changes nothing: reconciliation is then idempotent |
| ImageReconciler.ReconcileAppendsNew | src/main/java/com/bookbrew/product/service/service/ProductService.java:140-146 | images without an id are appended, never merged: the current list stays whole and the image table is unchanged |
| ImageReconciler.ReconcileRepeatedId | src/main/java/com/bookbrew/product/service/service/ProductService.java:119-151 | a stored image submitted twice appears twice at the end of the list, and its stored content is that of the second occurrence |
| ProductService.MergeDetails | src/main/java/com/bookbrew/product/service/service/ProductService.java:90-113 | each of the twelve scalar fields is replaced iff the patch value is non-null and otherwise equals the stored one |
| ProductService.DetailsMergedUnique | src/main/java/com/bookbrew/product/service/service/ProductService.java:90-113 | the per-field null-means-unchanged rule determines the merged record completely |
| ProductService.MergeDetailsIdempotent | src/main/java/com/bookbrew/product/service/service/ProductService.java:90-113 | merging the same patch twice is merging it once |
| ProductService.Update | src/main/java/com/bookbrew/product/service/service/ProductService.java:85-156 | NotFound(product) for an unknown id, then NotFound(category), NotFound(brand), NotFound(image) in that order; on success fields merge, brand and category are replaced by id, creation date kept, update date stamped, images unchanged when the list is null and otherwise reconciled keeping every current entry; only that product and the image table change |
| ProductService.UpdateWithEmptyPatch | src/main/java/com/bookbrew/product/service/service/ProductService.java:90-153 | an all-null payload changes nothing but the update date |
| ProductService.Attach | src/main/java/com/bookbrew/product/service/service/ProductService.java:65-80 | a failed lookup is NotFound(image); the mapped list has the posted length; the image table keeps its ids |
| ProductService.AttachFailsIffUnresolved | src/main/java/com/bookbrew/product/service/service/ProductService.java:66-78 | attaching the posted images fails exactly when a posted id has no stored image |
| ProductService.AttachSlots | src/main/java/com/bookbrew/product/service/service/ProductService.java:66-78 | the product's list maps the posted images element-wise, in posted order: an id becomes a reference to that image, no id a new image |
| ProductService.AttachImageTable | src/main/java/com/bookbrew/product/service/service/ProductService.java:66-78 | a re-attached stored image changes only its owner; images not posted are untouched |
| ProductService.CreateProduct | src/main/java/com/bookbrew/product/service/service/ProductService.java:59-83 | NotFound(category), then NotFound(brand), then NotFound(image); on success a new id holds a product with the posted fields, creation date now, update date as posted, images mapped element-wise; brands and categories unchanged |
| ProductService.CreateKeepsStoredImageContent | src/main/java/com/bookbrew/product/service/service/ProductService.java:68-73 | a posted image with an id keeps its stored description and data and is re-attached to the new product |
| ProductService.CreateLeavesUnpostedImages | src/main/java/com/bookbrew/product/service/service/ProductService.java:65-80 | a stored image that was not posted with the new product keeps its row unchanged |
| ProductService.DeleteProduct | src/main/java/com/bookbrew/product/service/service/ProductService.java:158-162 | NotFound for an unknown id, otherwise exactly that product is removed |
| ProductService.FindAll | src/main/java/com/bookbrew/product/service/service/ProductService.java:38-52 | NotFound exactly when no product is stored, otherwise every product |
| ProductService.FindById | src/main/java/com/bookbrew/product/service/service/ProductService.java:54-57 | the stored product for a present id, NotFound otherwise |
| ProductService.FindAllProductImages | src/main/java/com/bookbrew/product/service/service/ProductService.java:164-170 | NotFound exactly when no image is stored, otherwise every image |
| ProductService.FindImageData | src/main/java/com/bookbrew/product/service/service/ProductService.java:172-176 | the stored image's content for a present id, NotFound otherwise |
| ProductService.AddImage | src/main/java/com/bookbrew/product/service/service/ProductService.java:178-195 | NotFound for an unknown product; otherwise the image table gains exactly one new image with the given description and file, owned by the product, and nothing else changes |
| ProductService.UpdateProductImage | src/main/java/com/bookbrew/product/service/service/ProductService.java:212-231 | NotFound for an unknown image; the description changes only if given, the content only if a file is given; owner and everything else unchanged |
| ProductService.UpdateProductImageIgnoresProduct | src/main/java/com/bookbrew/product/service/service/ProductService.java:213-226 | the product id argument is never consulted |
| ProductService.RemoveFirst | src/main/java/com/bookbrew/product/service/service/ProductService.java:245 | `List.remove(Object)` cuts out the first occurrence and keeps every other entry in order; one entry shorter, multiset minus that entry |
| ProductService.FirstRemovedUnique | src/main/java/com/bookbrew/product/service/service/ProductService.java:245 | cutting out the first occurrence determines the resulting list uniquely |
| ProductService.DeleteProductImage | src/main/java/com/bookbrew/product/service/service/ProductService.java:233-248 | NotFound(product), NotFound(image), or NotFound when the image is not in the product's list; on success the first occurrence is cut out with the rest of the list kept in order, and nothing else in the store changes |
| ProductService.DeleteProductImageRemovesIt | src/main/java/com/bookbrew/product/service/service/ProductService.java:241-245 | when listed once, the image is gone from the product and every other entry remains |
| CatalogIntegrity.UpdateKeepsValid | src/main/java/com/bookbrew/product/service/service/ProductService.java:114-150 | a successful update keeps every product's brand, category and stored images resolvable |
| CatalogIntegrity.CreateProductKeepsValid | src/main/java/com/bookbrew/product/service/service/ProductService.java:60-82 | a successful create keeps the store referentially intact |
| CatalogIntegrity.DeleteProductKeepsValid | src/main/java/com/bookbrew/product/service/service/ProductService.java:158-162 | deleting a product keeps the store referentially intact |
| CatalogIntegrity.AddImageKeepsValid | src/main/java/com/bookbrew/product/service/service/ProductService.java:178-195 | adding an image keeps the store referentially intact |
| CatalogIntegrity.UpdateProductImageKeepsValid | src/main/java/com/bookbrew/product/service/service/ProductService.java:212-231 | updating an image keeps the store referentially intact |
| CatalogIntegrity.DeleteProductImageKeepsValid | src/main/java/com/bookbrew/product/service/service/ProductService.java:233-248 | removing an image from a product's list keeps the store referentially intact |
| CatalogIntegrity.CreateBrandKeepsValid | src/main/java/com/bookbrew/product/service/service/BrandService.java:37-40 | creating a brand keeps the store referentially intact |
| CatalogIntegrity.UpdateBrandKeepsValid | src/main/java/com/bookbrew/product/service/service/BrandService.java:42-52 | updating a brand keeps the store referentially intact |
| CatalogIntegrity.DeleteBrandKeepsValid | src/main/java/com/bookbrew/product/service/service/BrandService.java:54-64 | the in-use guard keeps every product's brand resolvable after a delete |
| CatalogIntegrity.CreateCategoryKeepsValid | src/main/java/com/bookbrew/product/service/service/CategoryService.java:37-40 | creating a category keeps the store referentially intact |
| CatalogIntegrity.UpdateCategoryKeepsValid | src/main/java/com/bookbrew/product/service/service/CategoryService.java:42-52 | updating a category keeps the store referentially intact |
| CatalogIntegrity.DeleteCategoryKeepsValid | src/main/java/com/bookbrew/product/service/service/CategoryService.java:54-64 | the in-use guard keeps every product's category resolvable after a delete |
| Scenarios.DuplicateBrandRefused | src/main/java/com/bookbrew/product/service/service/BrandService.java:70-72 | creating brand "Acme" twice: the first succeeds, the second is DuplicateName |
| Scenarios.RepriceScenario | src/main/java/com/bookbrew/product/service/service/ProductService.java:86-97 | a price-only payload yields the stored product with only its price and update date changed, and a store that differs only in that product |

## Left out

- HTTP controllers, the exception-to-status mapping and the response objects are not modelled. They only route calls and format results.
- Conversion of entities to response DTOs is left out. The lookups return the stored entities.
- Exception messages are not modelled, only the exception kind and which lookup failed.
- Multipart decoding is not modelled. An uploaded file is its bytes, and a missing file is `None`.
- The `IOException` wrapped into a `RuntimeException` is not modelled.
- `createProductImage` with no file throws a null-pointer error. The model's `AddImage` takes the file as required.
- The wall clock is a parameter. Whether the update date strictly increases depends on that clock and is not stated.
- Cascades and orphan removal are not modelled, because the product entity's mapping is not part of this model. Deleting a product leaves its image rows, and removing an image from a product's list leaves the image row.
- New images in a product's list keep no id. The model does not give them the id the database would assign on save.
- The product's image list is modelled as stored. A list derived from the images' owner column is not modelled, so `AddImage` does not put the new image in the product's list.
- `updatable = false` on the image's product column is not modelled. A re-attached image's owner changes in the model.
- Image rows without an owning product are not represented: every operation that creates or re-attaches an image sets its owner and none clears it, so `Image.product` is a plain id. Converting such a row to a response would throw a null-pointer error in `findAllProductImages` and `updateProductImage`.
- Bean-validation annotations (description not blank, 2 to 30 characters, status not null) are checked by the framework, not by these services, and are not modelled. Brands and products posted for creation, and brands posted for update, are not marked for validation at the controller, so for them the checks run, if at all, only when the entity is persisted.
- A brand or category object that is present but has a null id makes the repository throw on `findById(null)`. The model carries ids only.
- A product posted for creation with an id of its own would be merged by the repository. The model always inserts it under a new id.
- A brand or category posted for creation is saved as bound from the request, id included, so one carrying the id of a stored row would overwrite that row. `Classification.Create` always inserts under a new id.
- `createProduct` with no category object and `createProductImage` with no product object throw a null-pointer error before any lookup. With no brand object, `createProduct` first looks up the category (NotFound when it is not stored) and then throws the null-pointer error. The model's `NewProduct.categoryId`, `NewProduct.brandId` and the `productId` of `AddImage` are plain ids, so these inputs cannot be expressed.
- Prices, stock and dimensions are only copied. They are modelled as `real` and `int` values and never computed on.
- Classification.Validate: descriptions are compared as exact strings. In the running system the database collation decides equality in `findByDescription`, and it may ignore case or trailing spaces; that is not modelled.
- Classification.Validate: if two stored rows share the submitted description, which updates allow, `findByDescription` throws a non-unique-result error. The model reports DuplicateName instead.
- Concurrency and transaction isolation are not modelled. Every call is atomic by construction.

=== FILE: brand_service.dfy ===
/** The brand service over the whole store: the shared classification logic
    applied to the brands repository, with the product repository consulted
    before a delete. */
module BrandService {
  import opened Wrappers
  import opened Catalog
  import Classification

  function GetBrandById(st: Store, id: int): (r: Result<Classifier, Error>)
    ensures r.Success? <==> id in st.brands.rows
    ensures r.Success? ==> r.value == st.brands.rows[id]
    ensures r.Failure? ==> r.error == NotFound(NoSuch(BrandKind))
  {
    Classification.GetById(st.brands, id, BrandKind)
  }

  function GetAllBrands(st: Store): (r: Result<map<int, Classifier>, Error>)
    ensures r.Failure? <==> |st.brands.rows| == 0
    ensures r.Failure? ==> r.error == NotFound(NoneStored(BrandKind))
    ensures r.Success? ==> r.value == st.brands.rows
  {
    Classification.GetAll(st.brands, BrandKind)
  }

  /** A blank description is refused before the uniqueness lookup; an exact
      duplicate is refused; otherwise the store gains exactly this brand. */
  function CreateBrand(st: Store, c: Classifier): (r: Result<(Store, int), Error>)
    ensures Classification.Blank(c.description) ==> r == Failure(BadRequest(BlankDescription))
    ensures !Classification.Blank(c.description) && Classification.Taken(st.brands, c.description.value) ==>
      r == Failure(DuplicateName)
    ensures r.Success? <==> !Classification.Blank(c.description) && !Classification.Taken(st.brands, c.description.value)
    ensures r.Success? ==>
      var (st', id) := r.value;
      && id !in st.brands.rows
      && st'.brands.rows == st.brands.rows[id := c]
      && st' == st.(brands := st'.brands)
  {
    var (t, id) :- Classification.Create(st.brands, c);
    Success((st.(brands := t), id))
  }

  /** Null-means-unchanged update of description and status, without validation. */
  function UpdateBrand(st: Store, id: int, patch: Classifier): (r: Result<(Store, Classifier), Error>)
    ensures r.Success? <==> id in st.brands.rows
    ensures r.Failure? ==> r.error == NotFound(NoSuch(BrandKind))
    ensures r.Success? ==>
      var (st', c) := r.value;
      && st' == st.(brands := st'.brands)
      && st'.brands.rows == st.brands.rows[id := c]
      && (patch.description.Some? ==> c.description == patch.description)
      && (patch.description.None? ==> c.description == st.brands.rows[id].description)
      && (patch.status.Some? ==> c.status == patch.status)
      && (patch.status.None? ==> c.status == st.brands.rows[id].status)
  {
    var (t, c) :- Classification.Update(st.brands, id, patch, BrandKind);
    Success((st.(brands := t), c))
  }

  /** `existsByBrand`: some product references the brand. */
  predicate BrandInUse(st: Store, id: int) {
    exists pid :: pid in st.products.rows && st.products.rows[pid].brandId == id
  }

  /** Refused while any product references the brand; otherwise exactly
      that brand is removed. */
  function DeleteBrand(st: Store, id: int): (r: Result<Store, Error>)
    ensures id !in st.brands.rows ==> r == Failure(NotFound(NoSuch(BrandKind)))
    ensures id in st.brands.rows && BrandInUse(st, id) ==> r == Failure(BadRequest(StillReferenced))
    ensures r.Success? <==> id in st.brands.rows && !BrandInUse(st, id)
    ensures r.Success? ==> r.value == st.(brands := r.value.brands) && r.value.brands.rows == st.brands.rows - {id}
  {
    var t :- Classification.Delete(st.brands, id, BrandInUse(st, id), BrandKind);
    Success(st.(brands := t))
  }
}

=== FILE: catalog.dfy ===
/** The entities of the product catalog and the store that holds them.

    Every repository (products, product images, brands, categories) is a
    `Keyed` table: a map from id to row plus the next id the database's
    IDENTITY column would hand out. */
module Catalog {
  import opened Wrappers

  /** A wall-clock reading, supplied by the caller in place of `LocalDateTime.now()`. */
  type Instant = int

  /** The raw content of an image, copied but never inspected. */
  type Blob = seq<bv8>

  /** The entity a lookup was about. */
  datatype Kind = ProductKind | ImageKind | BrandKind | CategoryKind

  /** Why a `ResourceNotFoundException` was thrown. */
  datatype Missing =
    | NoSuch(kind: Kind)        // no row with the requested id
    | NoneStored(kind: Kind)    // a "find all" on an empty repository
    | NotInProduct              // the image exists but is not in the product's list

  /** Why a `BadRequestException` was thrown. */
  datatype Refusal = BlankDescription | StillReferenced

  /** The exceptions the services throw; a failed call leaves the store as it was. */
  datatype Error =
    | NotFound(missing: Missing)
    | BadRequest(refusal: Refusal)
    | DuplicateName

  /** The twelve scalar fields of a product, each nullable. The same record is
      used for a stored product and for an update payload, where an absent
      field means "leave unchanged". Prices and dimensions are only copied. */
  datatype Details = Details(
    code: Option<string>,
    title: Option<string>,
    description: Option<string>,
    price: Option<real>,
    stock: Option<int>,
    minimumStock: Option<int>,
    status: Option<bool>,
    weight: Option<real>,
    height: Option<real>,
    width: Option<real>,
    length: Option<real>,
    salesQuantity: Option<int>)

  /** A persisted product image; `product` is the id of the owning product.
      Every operation that creates or re-attaches an image sets its owner and
      none clears it, so a row always has one. */
  datatype Image = Image(description: Option<string>, data: Option<Blob>, product: int)

  /** An image as submitted inside a product payload: with the id of a stored
      image, or without one for a new image. */
  datatype ImageInput = ImageInput(id: Option<int>, description: Option<string>, data: Option<Blob>)

  /** One entry of a product's image list: a reference to a stored image
      (whose current content lives in the image table), or a new image that
      has not been given an id. */
  datatype ImageSlot =
    | Stored(id: int)
    | Fresh(description: Option<string>, data: Option<Blob>)

  /** A product. Brand and category are held by id, as the foreign-key columns do. */
  datatype Product = Product(
    details: Details,
    categoryId: int,
    brandId: int,
    images: seq<ImageSlot>,
    creationDate: Option<Instant>,
    updateDate: Option<Instant>)

  /** A brand or a category: both entities have the same two fields. */
  datatype Classifier = Classifier(description: Option<string>, status: Option<bool>)

  /** A repository: its rows by id and the id the next insertion receives. */
  datatype Table<T> = Table(rows: map<int, T>, next: int) {
    predicate NextUnused() {
      forall k :: k in rows ==> k < next
    }
  }

  /** A table whose counter is above every stored id, so an insertion never
      overwrites a row. */
  type Keyed<T> = t: Table<T> | t.NextUnused() witness Table(map[], 0)

  /** Saves a new row under the next id. */
  function Insert<T>(t: Keyed<T>, v: T): (r: (Keyed<T>, int))
    ensures r.1 !in t.rows
    ensures r.0.rows == t.rows[r.1 := v]
  {
    (Table(t.rows[t.next := v], t.next + 1), t.next)
  }

  /** Saves a row under an id that is already stored. */
  function Put<T>(t: Keyed<T>, id: int, v: T): (r: Keyed<T>)
    requires id in t.rows
    ensures r.rows.Keys == t.rows.Keys
  {
    Table(t.rows[id := v], t.next)
  }

  /** The same table with its rows replaced by rows under the same ids. */
  function Rekeyed<T>(t: Keyed<T>, rows: map<int, T>): (r: Keyed<T>)
    requires rows.Keys == t.rows.Keys
    ensures r.rows.Keys == t.rows.Keys
  {
    Table(rows, t.next)
  }

  /** Deletes the row with the given id. */
  function Remove<T>(t: Keyed<T>, id: int): (r: Keyed<T>)
    ensures r.rows.Keys == t.rows.Keys - {id}
  {
    Table(t.rows - {id}, t.next)
  }

  /** The four repositories. */
  datatype Store = Store(
    products: Keyed<Product>,
    images: Keyed<Image>,
    brands: Keyed<Classifier>,
    categories: Keyed<Classifier>)

  /** Every reference a product holds resolves: its brand, its category and
      every stored image in its list. */
  predicate Linked(st: Store, p: Product) {
    && p.brandId in st.brands.rows
    && p.categoryId in st.categories.rows
    && forall i :: 0 <= i < |p.images| && p.images[i].Stored? ==> p.images[i].id in st.images.rows
  }

  /** Referential integrity of the whole store. */
  predicate Valid(st: Store) {
    forall id :: id in st.products.rows ==> Linked(st, st.products.rows[id])
  }
}

=== FILE: catalog_integrity.dfy ===
/** Referential integrity of the store (`Catalog.Valid`): every product's
    brand, category and stored images resolve. Each successful mutating call
    keeps it; for the brand and category deletes this is exactly what the
    "any product references it" guard buys. */
module CatalogIntegrity {
  import opened Wrappers
  import opened Catalog
  import opened ImageReconciler
  import ProductService
  import BrandService
  import CategoryService

  /** An image table that keeps every key keeps every product linked. */
  lemma {:induction false} LinkedUnderSameImageKeys(st: Store, st': Store, p: Product)
    requires Linked(st, p)
    requires st'.brands.rows.Keys >= st.brands.rows.Keys && st'.categories.rows.Keys >= st.categories.rows.Keys
    requires st'.images.rows.Keys >= st.images.rows.Keys
    ensures Linked(st', p)
  {
  }

  lemma UpdateKeepsValid(st: Store, id: int, patch: ProductService.ProductPatch, now: Instant)
    requires Valid(st)
    requires ProductService.Update(st, id, patch, now).Success?
    ensures Valid(ProductService.Update(st, id, patch, now).value.0)
  {
    var (st', p') := ProductService.Update(st, id, patch, now).value;
    var p := st.products.rows[id];
    assert Linked(st, p);
    if patch.images.Some? {
      ReconcileResolves(p.images, patch.images.value, st.images, id);
    }
    assert Linked(st', p');
    forall q | q in st'.products.rows ensures Linked(st', st'.products.rows[q]) {
      if q != id {
        LinkedUnderSameImageKeys(st, st', st.products.rows[q]);
      }
    }
  }

  lemma CreateProductKeepsValid(st: Store, input: ProductService.NewProduct, now: Instant)
    requires Valid(st)
    requires ProductService.CreateProduct(st, input, now).Success?
    ensures Valid(ProductService.CreateProduct(st, input, now).value.0)
  {
    var (st', (id, p)) := ProductService.CreateProduct(st, input, now).value;
    forall i | 0 <= i < |p.images| && p.images[i].Stored? ensures p.images[i].id in st'.images.rows {
      var inputs := input.images.value;
      assert p.images[i] == SlotFor(inputs[i]);
      assert !Unresolved(inputs, st.images.rows);
    }
    forall q | q in st'.products.rows ensures Linked(st', st'.products.rows[q]) {
      if q != id {
        LinkedUnderSameImageKeys(st, st', st.products.rows[q]);
      }
    }
  }

  lemma DeleteProductKeepsValid(st: Store, id: int)
    requires Valid(st)
    requires ProductService.DeleteProduct(st, id).Success?
    ensures Valid(ProductService.DeleteProduct(st, id).value)
  {
  }

  lemma AddImageKeepsValid(st: Store, productId: int, description: Option<string>, file: Blob)
    requires Valid(st)
    requires ProductService.AddImage(st, productId, description, file).Success?
    ensures Valid(ProductService.AddImage(st, productId, description, file).value.0)
  {
    var st' := ProductService.AddImage(st, productId, description, file).value.0;
    forall q | q in st'.products.rows ensures Linked(st', st'.products.rows[q]) {
      LinkedUnderSameImageKeys(st, st', st.products.rows[q]);
    }
  }

  lemma UpdateProductImageKeepsValid(st: Store, productId: int, imageId: int, description: Option<string>, file: Option<Blob>)
    requires Valid(st)
    requires ProductService.UpdateProductImage(st, productId, imageId, description, file).Success?
    ensures Valid(ProductService.UpdateProductImage(st, productId, imageId, description, file).value.0)
  {
    var st' := ProductService.UpdateProductImage(st, productId, imageId, description, file).value.0;
    forall q | q in st'.products.rows ensures Linked(st', st'.products.rows[q]) {
      LinkedUnderSameImageKeys(st, st', st.products.rows[q]);
    }
  }

  lemma DeleteProductImageKeepsValid(st: Store, productId: int, imageId: int)
    requires Valid(st)
    requires ProductService.DeleteProductImage(st, productId, imageId).Success?
    ensures Valid(ProductService.DeleteProductImage(st, productId, imageId).value)
  {
    var st' := ProductService.DeleteProductImage(st, productId, imageId).value;
    var p := st.products.rows[productId];
    var p' := st'.products.rows[productId];
    forall i | 0 <= i < |p'.images| && p'.images[i].Stored? ensures p'.images[i].id in st'.images.rows {
      assert p'.images[i] in multiset(p.images);
    }
  }

  lemma CreateBrandKeepsValid(st: Store, c: Classifier)
    requires Valid(st)
    requires BrandService.CreateBrand(st, c).Success?
    ensures Valid(BrandService.CreateBrand(st, c).value.0)
  {
    var st' := BrandService.CreateBrand(st, c).value.0;
    forall q | q in st'.products.rows ensures Linked(st', st'.products.rows[q]) {
      LinkedUnderSameImageKeys(st, st', st.products.rows[q]);
    }
  }

  lemma UpdateBrandKeepsValid(st: Store, id: int, patch: Classifier)
    requires Valid(st)
    requires BrandService.UpdateBrand(st, id, patch).Success?
    ensures Valid(BrandService.UpdateBrand(st, id, patch).value.0)
  {
    var st' := BrandService.UpdateBrand(st, id, patch).value.0;
    forall q | q in st'.products.rows ensures Linked(st', st'.products.rows[q]) {
      LinkedUnderSameImageKeys(st, st', st.products.rows[q]);
    }
  }

  /** The in-use guard is what keeps every product's brand resolvable. */
  lemma DeleteBrandKeepsValid(st: Store, id: int)
    requires Valid(st)
    requires BrandService.DeleteBrand(st, id).Success?
    ensures Valid(BrandService.DeleteBrand(st, id).value)
  {
    var st' := BrandService.DeleteBrand(st, id).value;
    forall q | q in st'.products.rows ensures Linked(st', st'.products.rows[q]) {
      assert st.products.rows[q].brandId != id;
    }
  }

  lemma CreateCategoryKeepsValid(st: Store, c: Classifier)
    requires Valid(st)
    requires CategoryService.CreateCategory(st, c).Success?
    ensures Valid(CategoryService.CreateCategory(st, c).value.0)
  {
    var st' := CategoryService.CreateCategory(st, c).value.0;
    forall q | q in st'.products.rows ensures Linked(st', st'.products.rows[q]) {
      LinkedUnderSameImageKeys(st, st', st.products.rows[q]);
    }
  }

  lemma UpdateCategoryKeepsValid(st: Store, id: int, patch: Classifier)
    requires Valid(st)
    requires CategoryService.UpdateCategory(st, id, patch).Success?
    ensures Valid(CategoryService.UpdateCategory(st, id, patch).value.0)
  {
    var st' := CategoryService.UpdateCategory(st, id, patch).value.0;
    forall q | q in st'.products.rows ensures Linked(st', st'.products.rows[q]) {
      LinkedUnderSameImageKeys(st, st', st.products.rows[q]);
    }
  }

  /** The in-use guard is what keeps every product's category resolvable. */
  lemma DeleteCategoryKeepsValid(st: Store, id: int)
    requires Valid(st)
    requires CategoryService.DeleteCategory(st, id).Success?
    ensures Valid(CategoryService.DeleteCategory(st, id).value)
  {
    var st' := CategoryService.DeleteCategory(st, id).value;
    forall q | q in st'.products.rows ensures Linked(st', st'.products.rows[q]) {
      assert st.products.rows[q].categoryId != id;
    }
  }
}

=== FILE: category_service.dfy ===
/** The category service over the whole store: the shared classification logic
    applied to the categories repository, with the product repository consulted
    before a delete. */
module CategoryService {
  import opened Wrappers
  import opened Catalog
  import Classification

  function GetCategoryById(st: Store, id: int): (r: Result<Classifier, Error>)
    ensures r.Success? <==> id in st.categories.rows
    ensures r.Success? ==> r.value == st.categories.rows[id]
    ensures r.Failure? ==> r.error == NotFound(NoSuch(CategoryKind))
  {
    Classification.GetById(st.categories, id, CategoryKind)
  }

  function GetAllCategories(st: Store): (r: Result<map<int, Classifier>, Error>)
    ensures r.Failure? <==> |st.categories.rows| == 0
    ensures r.Failure? ==> r.error == NotFound(NoneStored(CategoryKind))
    ensures r.Success? ==> r.value == st.categories.rows
  {
    Classification.GetAll(st.categories, CategoryKind)
  }

  /** A blank description is refused before the uniqueness lookup; an exact
      duplicate is refused; otherwise the store gains exactly this category. */
  function CreateCategory(st: Store, c: Classifier): (r: Result<(Store, int), Error>)
    ensures Classification.Blank(c.description) ==> r == Failure(BadRequest(BlankDescription))
    ensures !Classification.Blank(c.description) && Classification.Taken(st.categories, c.description.value) ==>
      r == Failure(DuplicateName)
    ensures r.Success? <==> !Classification.Blank(c.description) && !Classification.Taken(st.categories, c.description.value)
    ensures r.Success? ==>
      var (st', id) := r.value;
      && id !in st.categories.rows
      && st'.categories.rows == st.categories.rows[id := c]
      && st' == st.(categories := st'.categories)
  {
    var (t, id) :- Classification.Create(st.categories, c);
    Success((st.(categories := t), id))
  }

  /** Null-means-unchanged update of description and status, without validation. */
  function UpdateCategory(st: Store, id: int, patch: Classifier): (r: Result<(Store, Classifier), Error>)
    ensures r.Success? <==> id in st.categories.rows
    ensures r.Failure? ==> r.error == NotFound(NoSuch(CategoryKind))
    ensures r.Success? ==>
      var (st', c) := r.value;
      && st' == st.(categories := st'.categories)
      && st'.categories.rows == st.categories.rows[id := c]
      && (patch.description.Some? ==> c.description == patch.description)
      && (patch.description.None? ==> c.description == st.categories.rows[id].description)
      && (patch.status.Some? ==> c.status == patch.status)
      && (patch.status.None? ==> c.status == st.categories.rows[id].status)
  {
    var (t, c) :- Classification.Update(st.categories, id, patch, CategoryKind);
    Success((st.(categories := t), c))
  }

  /** `existsByCategory`: some product references the category. */
  predicate CategoryInUse(st: Store, id: int) {
    exists pid :: pid in st.products.rows && st.products.rows[pid].categoryId == id
  }

  /** Refused while any product references the category; otherwise exactly
      that category is removed. */
  function DeleteCategory(st: Store, id: int): (r: Result<Store, Error>)
    ensures id !in st.categories.rows ==> r == Failure(NotFound(NoSuch(CategoryKind)))
    ensures id in st.categories.rows && CategoryInUse(st, id) ==> r == Failure(BadRequest(StillReferenced))
    ensures r.Success? <==> id in st.categories.rows && !CategoryInUse(st, id)
    ensures r.Success? ==> r.value == st.(categories := r.value.categories) && r.value.categories.rows == st.categories.rows - {id}
  {
    var t :- Classification.Delete(st.categories, id, CategoryInUse(st, id), CategoryKind);
    Success(st.(categories := t))
  }
}

=== FILE: classification.dfy ===
/** The service logic shared by brands and categories. `BrandService` and
    `CategoryService` are the same code over two repositories; each function
    here takes the table and the entity kind (used in the NotFound error). */
module Classification {
  import opened Wrappers
  import opened Catalog
  import Text

  /** Lookup by id, or NotFound. */
  function GetById(t: Keyed<Classifier>, id: int, kind: Kind): (r: Result<Classifier, Error>)
    ensures r.Success? <==> id in t.rows
    ensures r.Success? ==> r.value == t.rows[id]
    ensures r.Failure? ==> r.error == NotFound(NoSuch(kind))
  {
    if id in t.rows then Success(t.rows[id]) else Failure(NotFound(NoSuch(kind)))
  }

  /** Every stored row; an empty repository is reported as NotFound. */
  function GetAll(t: Keyed<Classifier>, kind: Kind): (r: Result<map<int, Classifier>, Error>)
    ensures r.Failure? <==> |t.rows| == 0
    ensures r.Failure? ==> r.error == NotFound(NoneStored(kind))
    ensures r.Success? ==> r.value == t.rows
  {
    if t.rows == map[] then Failure(NotFound(NoneStored(kind))) else Success(t.rows)
  }

  /** A null description, or one that is empty after `trim()`. */
  predicate Blank(d: Option<string>) {
    d.None? || Text.IsBlank(d.value)
  }

  /** `findByDescription(d).isPresent()`: some stored row has this description,
      compared as strings. */
  predicate Taken(t: Keyed<Classifier>, d: string) {
    exists k :: k in t.rows && t.rows[k].description == Some(d)
  }

  /** The creation-time validation: the blank check first, then the
      uniqueness check. */
  function Validate(t: Keyed<Classifier>, c: Classifier): (r: Result<(), Error>)
    ensures r.Success? <==> c.description.Some? && !Text.IsBlank(c.description.value) && !Taken(t, c.description.value)
    ensures Blank(c.description) ==> r == Failure(BadRequest(BlankDescription))
    ensures !Blank(c.description) && Taken(t, c.description.value) ==> r == Failure(DuplicateName)
  {
    match c.description
    case None => Failure(BadRequest(BlankDescription))
    case Some(d) =>
      if Text.IsBlank(d) then Failure(BadRequest(BlankDescription))
      else if Taken(t, d) then Failure(DuplicateName)
      else Success(())
  }

  /** Validates, then saves the row under an id the table never handed out
      before: every id it stores or has stored is below `next`. */
  function Create(t: Keyed<Classifier>, c: Classifier): (r: Result<(Keyed<Classifier>, int), Error>)
    ensures r.Success? <==> !Blank(c.description) && !Taken(t, c.description.value)
    ensures Blank(c.description) ==> r == Failure(BadRequest(BlankDescription))
    ensures !Blank(c.description) && Taken(t, c.description.value) ==> r == Failure(DuplicateName)
    ensures r.Success? ==> var (t', id) := r.value; id !in t.rows && t'.rows == t.rows[id := c]
    ensures r.Success? ==> r.value.1 >= t.next && r.value.0.next > r.value.1
  {
    var _ :- Validate(t, c);
    var (t', id) := Insert(t, c);
    Success((t', id))
  }

  /** Partial update of a stored row: a null field leaves the stored value;
      no blank or uniqueness check is made. */
  function Update(t: Keyed<Classifier>, id: int, patch: Classifier, kind: Kind): (r: Result<(Keyed<Classifier>, Classifier), Error>)
    ensures r.Success? <==> id in t.rows
    ensures r.Failure? ==> r.error == NotFound(NoSuch(kind))
    ensures r.Success? ==>
      var (t', c) := r.value;
      && t'.rows == t.rows[id := c]
      && (patch.description.Some? ==> c.description == patch.description)
      && (patch.description.None? ==> c.description == t.rows[id].description)
      && (patch.status.Some? ==> c.status == patch.status)
      && (patch.status.None? ==> c.status == t.rows[id].status)
  {
    if id !in t.rows then Failure(NotFound(NoSuch(kind)))
    else
      var prev := t.rows[id];
      var c := Classifier(
        if patch.description.Some? then patch.description else prev.description,
        if patch.status.Some? then patch.status else prev.status);
      Success((Put(t, id, c), c))
  }

  /** Deletes a stored row unless some product still references it (`inUse`). */
  function Delete(t: Keyed<Classifier>, id: int, inUse: bool, kind: Kind): (r: Result<Keyed<Classifier>, Error>)
    ensures r.Success? <==> id in t.rows && !inUse
    ensures id !in t.rows ==> r == Failure(NotFound(NoSuch(kind)))
    ensures id in t.rows && inUse ==> r == Failure(BadRequest(StillReferenced))
    ensures r.Success? ==> r.value.rows == t.rows - {id}
  {
    if id !in t.rows then Failure(NotFound(NoSuch(kind)))
    else if inUse then Failure(BadRequest(StillReferenced))
    else Success(Remove(t, id))
  }

  /** No two rows share a present description. */
  predicate UniqueDescriptions(t: Keyed<Classifier>) {
    forall a, b :: a in t.rows && b in t.rows && a != b && t.rows[a].description.Some? ==>
      t.rows[a].description != t.rows[b].description
  }

  /** Creation keeps descriptions unique: the uniqueness check is what makes it so. */
  lemma CreateKeepsUnique(t: Keyed<Classifier>, c: Classifier)
    requires UniqueDescriptions(t)
    requires Create(t, c).Success?
    ensures UniqueDescriptions(Create(t, c).value.0)
  {
    var (t', id) := Create(t, c).value;
    forall a, b | a in t'.rows && b in t'.rows && a != b && t'.rows[a].description.Some?
      ensures t'.rows[a].description != t'.rows[b].description
    {
      if a == id {
        assert t'.rows[b] == t.rows[b];
        assert !(t.rows[b].description == Some(c.description.value));
      } else if b == id {
        assert t'.rows[a] == t.rows[a];
        assert !(t.rows[a].description == Some(c.description.value));
      }
    }
  }

  /** Update does not keep descriptions unique: renaming one row to another
      row's description is accepted. */
  lemma UpdateMayDuplicate()
    ensures var t: Keyed<Classifier> := Table(map[1 := Classifier(Some("Acme"), Some(true)), 2 := Classifier(Some("Zeta"), Some(true))], 3);
      && UniqueDescriptions(t)
      && Update(t, 2, Classifier(Some("Acme"), None), BrandKind).Success?
      && !UniqueDescriptions(Update(t, 2, Classifier(Some("Acme"), None), BrandKind).value.0)
  {
    var t: Keyed<Classifier> := Table(map[1 := Classifier(Some("Acme"), Some(true)), 2 := Classifier(Some("Zeta"), Some(true))], 3);
    var t' := Update(t, 2, Classifier(Some("Acme"), None), BrandKind).value.0;
    assert t'.rows[1].description == t'.rows[2].description;
  }
}

=== FILE: image_reconciler.dfy ===
/** The reconciliation of a product's image list against the list submitted
    in an update payload (`ProductService.update`).

    The current list is filtered, not diffed: every current entry whose id is
    not among the submitted ids is kept, in order; then one entry per
    submitted image follows, in submission order. A submitted image with an
    id must be stored and is overwritten field by field; one without an id
    becomes a new image. No current entry disappears from the list, though
    a stored image listed several times and submitted keeps only the
    occurrences that are submitted. */
module ImageReconciler {
  import opened Wrappers
  import opened Catalog

  /** The ids carried by the submitted entries. */
  function SubmittedIds(submitted: seq<ImageInput>): (ids: set<int>)
    ensures forall k :: k in ids <==> exists i :: 0 <= i < |submitted| && submitted[i].id == Some(k)
  {
    set i | 0 <= i < |submitted| && submitted[i].id.Some? :: submitted[i].id.value
  }

  /** A current entry survives the filter unless it is a stored image whose id
      was submitted. New (id-less) entries always survive. */
  predicate Retained(slot: ImageSlot, ids: set<int>) {
    !(slot.Stored? && slot.id in ids)
  }

  /** The current entries that are kept, in their original order. */
  function Kept(current: seq<ImageSlot>, ids: set<int>): (r: seq<ImageSlot>)
    ensures |r| <= |current|
    ensures forall x :: x in r <==> x in current && Retained(x, ids)
  {
    if current == [] then []
    else (if Retained(current[0], ids) then [current[0]] else []) + Kept(current[1..], ids)
  }

  /** The filter works entry by entry, so it preserves the relative order of
      what it keeps. */
  lemma {:induction false} KeptDistributes(a: seq<ImageSlot>, b: seq<ImageSlot>, ids: set<int>)
    ensures Kept(a + b, ids) == Kept(a, ids) + Kept(b, ids)
  {
    if a == [] {
      assert a + b == b;
    } else {
      assert (a + b)[1..] == a[1..] + b;
      KeptDistributes(a[1..], b, ids);
    }
  }

  /** The list entry a submitted image becomes. */
  function SlotFor(input: ImageInput): (r: ImageSlot)
    ensures r.Stored? <==> input.id.Some?
    ensures r.Stored? ==> r.id == input.id.value
    ensures r.Fresh? ==> r.description == input.description && r.data == input.data
  {
    match input.id
    case Some(k) => Stored(k)
    case None => Fresh(input.description, input.data)
  }

  function Slots(submitted: seq<ImageInput>): (r: seq<ImageSlot>)
    ensures |r| == |submitted|
    ensures forall i :: 0 <= i < |submitted| ==> r[i] == SlotFor(submitted[i])
  {
    seq(|submitted|, i requires 0 <= i < |submitted| => SlotFor(submitted[i]))
  }

  /** The stored image that a submitted entry with an id turns into: its
      content and description are replaced, null included, and it is attached
      to the product being updated. */
  function Overwritten(input: ImageInput, owner: int): Image {
    Image(input.description, input.data, owner)
  }

  /** Entry `i` is the last submitted entry carrying its id. */
  predicate LastWithId(submitted: seq<ImageInput>, i: int)
    requires 0 <= i < |submitted|
  {
    forall j :: i < j < |submitted| ==> submitted[j].id != submitted[i].id
  }

  /** Some submitted id has no stored image. */
  predicate Unresolved(submitted: seq<ImageInput>, images: map<int, Image>) {
    exists i :: 0 <= i < |submitted| && submitted[i].id.Some? && submitted[i].id.value !in images
  }

  /** Overwrites, left to right, every stored image whose id is submitted.
      The same stored image is written once per occurrence of its id. */
  function Overwrite(images: map<int, Image>, submitted: seq<ImageInput>, owner: int): (r: Result<map<int, Image>, Error>)
    ensures r.Failure? ==> r.error == NotFound(NoSuch(ImageKind))
    ensures r.Success? ==> r.value.Keys == images.Keys
    decreases |submitted|
  {
    if submitted == [] then Success(images)
    else
      var written :- Overwrite(images, submitted[..|submitted| - 1], owner);
      var last := submitted[|submitted| - 1];
      match last.id
      case None => Success(written)
      case Some(k) =>
        if k in written then Success(written[k := Overwritten(last, owner)])
        else Failure(NotFound(NoSuch(ImageKind)))
  }

  /** The overwrite fails exactly when a submitted id is not stored; the store
      is not changed by the earlier entries in that case, since a failure
      carries no store. */
  lemma {:induction false} OverwriteFailsIffUnresolved(images: map<int, Image>, submitted: seq<ImageInput>, owner: int)
    ensures Overwrite(images, submitted, owner).Failure? <==> Unresolved(submitted, images)
    decreases |submitted|
  {
    if submitted != [] {
      var prefix := submitted[..|submitted| - 1];
      var n := |submitted| - 1;
      OverwriteFailsIffUnresolved(images, prefix, owner);
      if Unresolved(prefix, images) {
        var i :| 0 <= i < |prefix| && prefix[i].id.Some? && prefix[i].id.value !in images;
        assert submitted[i] == prefix[i];
      }
    }
  }

  /** A stored image whose id is not submitted keeps its content and owner. */
  lemma {:induction false} OverwriteLeavesOthers(images: map<int, Image>, submitted: seq<ImageInput>, owner: int, k: int)
    requires Overwrite(images, submitted, owner).Success?
    requires k in images && k !in SubmittedIds(submitted)
    ensures Overwrite(images, submitted, owner).value[k] == images[k]
    decreases |submitted|
  {
    if submitted != [] {
      var prefix := submitted[..|submitted| - 1];
      OverwriteLeavesOthers(images, prefix, owner, k);
    }
  }

  /** The last occurrence of a submitted id decides that image's content: its
      description and data are the submitted ones, even when null, and it
      belongs to the updated product. */
  lemma {:induction false} OverwriteLastWins(images: map<int, Image>, submitted: seq<ImageInput>, owner: int, i: int)
    requires Overwrite(images, submitted, owner).Success?
    requires 0 <= i < |submitted| && submitted[i].id.Some? && LastWithId(submitted, i)
    ensures var written := Overwrite(images, submitted, owner).value;
      submitted[i].id.value in written && written[submitted[i].id.value] == Overwritten(submitted[i], owner)
    decreases |submitted|
  {
    var n := |submitted| - 1;
    if i < n {
      var prefix := submitted[..n];
      assert prefix[i] == submitted[i];
      assert LastWithId(prefix, i) by {
        forall j | i < j < |prefix| ensures prefix[j].id != prefix[i].id {
          assert prefix[j] == submitted[j];
        }
      }
      OverwriteLastWins(images, prefix, owner, i);
      assert submitted[n].id != submitted[i].id;
    }
  }

  /** The last occurrence of a submitted id. */
  lemma {:induction false} LastOccurrence(submitted: seq<ImageInput>, k: int) returns (i: int)
    requires k in SubmittedIds(submitted)
    ensures 0 <= i < |submitted| && submitted[i].id == Some(k) && LastWithId(submitted, i)
    decreases |submitted|
  {
    var n := |submitted| - 1;
    if submitted[n].id == Some(k) {
      i := n;
    } else {
      var prefix := submitted[..n];
      var j :| 0 <= j < |submitted| && submitted[j].id == Some(k);
      assert j < n && prefix[j] == submitted[j];
      i := LastOccurrence(prefix, k);
      assert submitted[i] == prefix[i];
      forall m | i < m < |submitted| ensures submitted[m].id != submitted[i].id {
        if m < n {
          assert submitted[m] == prefix[m];
        }
      }
    }
  }

  /** The reconciled image list and image table of the product `owner`, whose
      current list is `current`, for the submitted list `submitted`. */
  function Reconcile(current: seq<ImageSlot>, submitted: seq<ImageInput>, images: Keyed<Image>, owner: int)
    : (r: Result<(seq<ImageSlot>, Keyed<Image>), Error>)
    ensures r.Failure? <==> Unresolved(submitted, images.rows)
    ensures r.Failure? ==> r.error == NotFound(NoSuch(ImageKind))
    ensures r.Success? ==>
      var (slots, images') := r.value;
      && images'.rows.Keys == images.rows.Keys
      && |slots| == |Kept(current, SubmittedIds(submitted))| + |submitted|
      && slots[..|slots| - |submitted|] == Kept(current, SubmittedIds(submitted))
      && slots[|slots| - |submitted|..] == Slots(submitted)
  {
    OverwriteFailsIffUnresolved(images.rows, submitted, owner);
    var written := Overwrite(images.rows, submitted, owner);
    if written.Failure? then Failure(written.error)
    else
      var kept := Kept(current, SubmittedIds(submitted));
      SlotsAppended(kept, submitted);
      Success((kept + Slots(submitted), Rekeyed(images, written.value)))
  }

  /** `kept + Slots(submitted)` splits back into its two parts. */
  lemma SlotsAppended(kept: seq<ImageSlot>, submitted: seq<ImageInput>)
    ensures var slots := kept + Slots(submitted);
      && slots[..|slots| - |submitted|] == kept
      && slots[|slots| - |submitted|..] == Slots(submitted)
  {
    var slots := kept + Slots(submitted);
    assert slots[..|kept|] == kept;
    assert slots[|kept|..] == Slots(submitted);
  }

  /** Additive keep: every current entry is still in the reconciled list, so
      no image the product holds is lost by a bulk update. */
  lemma ReconcileKeepsEveryEntry(current: seq<ImageSlot>, submitted: seq<ImageInput>, images: Keyed<Image>, owner: int)
    requires Reconcile(current, submitted, images, owner).Success?
    ensures forall x :: x in current ==> x in Reconcile(current, submitted, images, owner).value.0
  {
    var slots := Reconcile(current, submitted, images, owner).value.0;
    var ids := SubmittedIds(submitted);
    var kept := Kept(current, ids);
    assert slots == kept + Slots(submitted);
    forall x | x in current ensures x in slots {
      if !Retained(x, ids) {
        var i :| 0 <= i < |submitted| && submitted[i].id == Some(x.id);
        assert Slots(submitted)[i] == x;
      }
    }
  }

  /** Every stored entry of `kept + Slots(submitted)` names a key, when the
      kept entries come from a list whose stored entries do and every
      submitted id is a key. */
  lemma SlotsResolve(current: seq<ImageSlot>, kept: seq<ImageSlot>, submitted: seq<ImageInput>, keys: set<int>)
    requires forall i :: 0 <= i < |current| && current[i].Stored? ==> current[i].id in keys
    requires forall x :: x in kept ==> x in current
    requires forall j :: 0 <= j < |submitted| && submitted[j].id.Some? ==> submitted[j].id.value in keys
    ensures var slots := kept + Slots(submitted);
      forall i :: 0 <= i < |slots| && slots[i].Stored? ==> slots[i].id in keys
  {
    var tail := Slots(submitted);
    var slots := kept + tail;
    forall i | 0 <= i < |slots| && slots[i].Stored? ensures slots[i].id in keys {
      if i < |kept| {
        assert slots[i] == kept[i];
        assert kept[i] in current;
      } else {
        assert slots[i] == tail[i - |kept|];
      }
    }
  }

  /** Every stored entry of the reconciled list names a stored image, if every
      current one did. */
  lemma ReconcileResolves(current: seq<ImageSlot>, submitted: seq<ImageInput>, images: Keyed<Image>, owner: int)
    requires Reconcile(current, submitted, images, owner).Success?
    requires forall i :: 0 <= i < |current| && current[i].Stored? ==> current[i].id in images.rows
    ensures var r := Reconcile(current, submitted, images, owner).value;
      forall i :: 0 <= i < |r.0| && r.0[i].Stored? ==> r.0[i].id in r.1.rows
  {
    var r := Reconcile(current, submitted, images, owner).value;
    assert r.0 == Kept(current, SubmittedIds(submitted)) + Slots(submitted);
    assert !Unresolved(submitted, images.rows);
    SlotsResolve(current, Kept(current, SubmittedIds(submitted)), submitted, images.rows.Keys);
  }

  /** The effect on the image table: an image whose id is not submitted is
      untouched; a submitted one holds the description and data of its last
      occurrence, null included, and belongs to the updated product. */
  lemma ReconcileImageTable(current: seq<ImageSlot>, submitted: seq<ImageInput>, images: Keyed<Image>, owner: int)
    requires Reconcile(current, submitted, images, owner).Success?
    ensures var images' := Reconcile(current, submitted, images, owner).value.1;
      && (forall k :: k in images.rows && k !in SubmittedIds(submitted) ==> images'.rows[k] == images.rows[k])
      && (forall i :: 0 <= i < |submitted| && submitted[i].id.Some? && LastWithId(submitted, i) ==>
            images'.rows[submitted[i].id.value] == Overwritten(submitted[i], owner))
  {
    forall k | k in images.rows && k !in SubmittedIds(submitted) {
      OverwriteLeavesOthers(images.rows, submitted, owner, k);
    }
    forall i | 0 <= i < |submitted| && submitted[i].id.Some? && LastWithId(submitted, i) {
      OverwriteLastWins(images.rows, submitted, owner, i);
    }
  }

  /** Filtering twice by the same ids is filtering once. */
  lemma {:induction false} KeptTwice(current: seq<ImageSlot>, ids: set<int>)
    ensures Kept(Kept(current, ids), ids) == Kept(current, ids)
  {
    if current != [] {
      var head := if Retained(current[0], ids) then [current[0]] else [];
      KeptDistributes(head, Kept(current[1..], ids), ids);
      KeptTwice(current[1..], ids);
      if Retained(current[0], ids) {
        assert Kept(head, ids) == head by {
          assert head[1..] == [];
        }
      }
    }
  }

  /** Every entry carries a submitted id, so the filter drops them all. */
  lemma {:induction false} KeptDropsSubmitted(submitted: seq<ImageInput>, ids: set<int>)
    requires forall i :: 0 <= i < |submitted| ==> submitted[i].id.Some? && submitted[i].id.value in ids
    ensures Kept(Slots(submitted), ids) == []
  {
    KeptNone(Slots(submitted), ids);
  }

  lemma {:induction false} KeptNone(current: seq<ImageSlot>, ids: set<int>)
    requires forall i :: 0 <= i < |current| ==> !Retained(current[i], ids)
    ensures Kept(current, ids) == []
  {
    if current != [] {
      KeptNone(current[1..], ids);
    }
  }

  /** Overwriting twice with the same list is overwriting once. */
  lemma OverwriteTwice(images: map<int, Image>, submitted: seq<ImageInput>, owner: int)
    requires Overwrite(images, submitted, owner).Success?
    ensures Overwrite(Overwrite(images, submitted, owner).value, submitted, owner) == Overwrite(images, submitted, owner)
  {
    var once := Overwrite(images, submitted, owner).value;
    OverwriteFailsIffUnresolved(images, submitted, owner);
    OverwriteFailsIffUnresolved(once, submitted, owner);
    var twice := Overwrite(once, submitted, owner).value;
    forall k | k in once ensures twice[k] == once[k] {
      if k in SubmittedIds(submitted) {
        var i := LastOccurrence(submitted, k);
        OverwriteLastWins(images, submitted, owner, i);
        OverwriteLastWins(once, submitted, owner, i);
      } else {
        OverwriteLeavesOthers(once, submitted, owner, k);
      }
    }
    assert twice == once;
  }

  /** Submitting again a list in which every image carries an id changes
      nothing more: the reconciliation is then idempotent. */
  lemma ReconcileResubmitted(current: seq<ImageSlot>, submitted: seq<ImageInput>, images: Keyed<Image>, owner: int)
    requires forall i :: 0 <= i < |submitted| ==> submitted[i].id.Some?
    requires Reconcile(current, submitted, images, owner).Success?
    ensures var (slots, images') := Reconcile(current, submitted, images, owner).value;
      Reconcile(slots, submitted, images', owner) == Success((slots, images'))
  {
    var ids := SubmittedIds(submitted);
    var kept := Kept(current, ids);
    var added := Slots(submitted);
    OverwriteFailsIffUnresolved(images.rows, submitted, owner);
    var once := Overwrite(images.rows, submitted, owner).value;
    var images': Keyed<Image> := Table(once, images.next);
    assert Reconcile(current, submitted, images, owner) == Success((kept + added, images'));
    KeptResubmitted(current, submitted);
    OverwriteTwice(images.rows, submitted, owner);
    assert Overwrite(images'.rows, submitted, owner) == Success(once);
  }

  /** Filtering the reconciled list again by the same ids, when every
      submitted image carries an id, gives back the kept part. */
  lemma KeptResubmitted(current: seq<ImageSlot>, submitted: seq<ImageInput>)
    requires forall i :: 0 <= i < |submitted| ==> submitted[i].id.Some?
    ensures var ids := SubmittedIds(submitted);
      Kept(Kept(current, ids) + Slots(submitted), ids) == Kept(current, ids)
  {
    var ids := SubmittedIds(submitted);
    KeptDistributes(Kept(current, ids), Slots(submitted), ids);
    KeptTwice(current, ids);
    KeptDropsSubmitted(submitted, ids);
  }

  /** Duplicates in the submitted list yield duplicates: a stored image
      submitted twice appears twice after the kept entries, and the second
      occurrence decides its content. */
  lemma ReconcileRepeatedId(current: seq<ImageSlot>, submitted: seq<ImageInput>, images: Keyed<Image>, owner: int, k: int)
    requires |submitted| == 2 && submitted[0].id == Some(k) && submitted[1].id == Some(k)
    requires k in images.rows
    ensures var r := Reconcile(current, submitted, images, owner);
      && r.Success?
      && r.value.0 == Kept(current, {k}) + [Stored(k), Stored(k)]
      && r.value.1.rows[k] == Overwritten(submitted[1], owner)
  {
    TwiceSubmitted(submitted, k);
    assert !Unresolved(submitted, images.rows);
    ReconcileSplits(current, submitted, images, owner);
    assert LastWithId(submitted, 1);
    ReconcileImageTable(current, submitted, images, owner);
  }

  lemma TwiceSubmitted(submitted: seq<ImageInput>, k: int)
    requires |submitted| == 2 && submitted[0].id == Some(k) && submitted[1].id == Some(k)
    ensures SubmittedIds(submitted) == {k}
    ensures Slots(submitted) == [Stored(k), Stored(k)]
  {
  }

  /** A successful reconciliation is the kept entries followed by the
      submitted ones. */
  lemma ReconcileSplits(current: seq<ImageSlot>, submitted: seq<ImageInput>, images: Keyed<Image>, owner: int)
    requires Reconcile(current, submitted, images, owner).Success?
    ensures Reconcile(current, submitted, images, owner).value.0 == Kept(current, SubmittedIds(submitted)) + Slots(submitted)
  {
  }

  /** New images are appended, never merged: submitting only id-less images
      leaves the current list whole and adds one entry each, so submitting
      the same new image twice yields it twice. */
  lemma ReconcileAppendsNew(current: seq<ImageSlot>, submitted: seq<ImageInput>, images: Keyed<Image>, owner: int)
    requires forall i :: 0 <= i < |submitted| ==> submitted[i].id.None?
    ensures Reconcile(current, submitted, images, owner) == Success((current + Slots(submitted), images))
  {
    assert SubmittedIds(submitted) == {};
    KeptAll(current);
    OverwriteWithoutIds(images.rows, submitted, owner);
  }

  lemma {:induction false} KeptAll(current: seq<ImageSlot>)
    ensures Kept(current, {}) == current
  {
    if current != [] {
      KeptAll(current[1..]);
    }
  }

  lemma {:induction false} OverwriteWithoutIds(images: map<int, Image>, submitted: seq<ImageInput>, owner: int)
    requires forall i :: 0 <= i < |submitted| ==> submitted[i].id.None?
    ensures Overwrite(images, submitted, owner) == Success(images)
    decreases |submitted|
  {
    if submitted != [] {
      OverwriteWithoutIds(images, submitted[..|submitted| - 1], owner);
    }
  }
}

=== FILE: product_service.dfy ===
/** The product service: creation, partial update with image reconciliation,
    deletion, lookups, and the single-image operations. Each mutating call is
    a pure function from the store to a new store and its output; a failure
    carries no store, standing for the transaction's rollback. */
module ProductService {
  import opened Wrappers
  import opened Catalog
  import opened ImageReconciler

  // ---------------------------------------------------------------------------
  // Field merge

  /** Null means unchanged: a present patch value replaces the stored one, an
      absent one keeps it. */
  predicate FieldMerged<T(==)>(stored: Option<T>, patch: Option<T>, merged: Option<T>) {
    && (patch.Some? ==> merged == patch)
    && (patch.None? ==> merged == stored)
  }

  predicate DetailsMerged(stored: Details, patch: Details, merged: Details) {
    && FieldMerged(stored.code, patch.code, merged.code)
    && FieldMerged(stored.title, patch.title, merged.title)
    && FieldMerged(stored.description, patch.description, merged.description)
    && FieldMerged(stored.price, patch.price, merged.price)
    && FieldMerged(stored.stock, patch.stock, merged.stock)
    && FieldMerged(stored.minimumStock, patch.minimumStock, merged.minimumStock)
    && FieldMerged(stored.status, patch.status, merged.status)
    && FieldMerged(stored.weight, patch.weight, merged.weight)
    && FieldMerged(stored.height, patch.height, merged.height)
    && FieldMerged(stored.width, patch.width, merged.width)
    && FieldMerged(stored.length, patch.length, merged.length)
    && FieldMerged(stored.salesQuantity, patch.salesQuantity, merged.salesQuantity)
  }

  function Merge<T>(stored: Option<T>, patch: Option<T>): Option<T> {
    if patch.Some? then patch else stored
  }

  /** The twelve `if (dto.getX() != null) product.setX(dto.getX())` lines. */
  function MergeDetails(stored: Details, patch: Details): (r: Details)
    ensures DetailsMerged(stored, patch, r)
  {
    Details(
      Merge(stored.code, patch.code),
      Merge(stored.title, patch.title),
      Merge(stored.description, patch.description),
      Merge(stored.price, patch.price),
      Merge(stored.stock, patch.stock),
      Merge(stored.minimumStock, patch.minimumStock),
      Merge(stored.status, patch.status),
      Merge(stored.weight, patch.weight),
      Merge(stored.height, patch.height),
      Merge(stored.width, patch.width),
      Merge(stored.length, patch.length),
      Merge(stored.salesQuantity, patch.salesQuantity))
  }

  /** A payload with every field null. */
  const NoDetails := Details(None, None, None, None, None, None, None, None, None, None, None, None)

  /** `DetailsMerged` pins the merged record down completely. */
  lemma DetailsMergedUnique(stored: Details, patch: Details, merged: Details)
    requires DetailsMerged(stored, patch, merged)
    ensures merged == MergeDetails(stored, patch)
  {
  }

  /** Merging the same patch a second time changes nothing. */
  lemma MergeDetailsIdempotent(stored: Details, patch: Details)
    ensures MergeDetails(MergeDetails(stored, patch), patch) == MergeDetails(stored, patch)
  {
  }

  // ---------------------------------------------------------------------------
  // update

  /** An update payload (`ProductDTO`): the scalar fields, the brand and
      category by id, and the image list, each possibly null. */
  datatype ProductPatch = ProductPatch(
    details: Details,
    categoryId: Option<int>,
    brandId: Option<int>,
    images: Option<seq<ImageInput>>)

  /** A category is given by an id that is not stored. */
  predicate CategoryUnresolved(st: Store, patch: ProductPatch) {
    patch.categoryId.Some? && patch.categoryId.value !in st.categories.rows
  }

  /** A brand is given by an id that is not stored. */
  predicate BrandUnresolved(st: Store, patch: ProductPatch) {
    patch.brandId.Some? && patch.brandId.value !in st.brands.rows
  }

  /** Why an update is refused, in the order the checks run. */
  predicate UpdateRefused(st: Store, id: int, patch: ProductPatch) {
    || id !in st.products.rows
    || CategoryUnresolved(st, patch)
    || BrandUnresolved(st, patch)
    || (patch.images.Some? && Unresolved(patch.images.value, st.images.rows))
  }

  /** `ProductService.update`: merge the scalar fields, re-resolve brand and
      category by id, reconcile the image list when one is submitted, and
      stamp the update date. */
  function Update(st: Store, id: int, patch: ProductPatch, now: Instant): (r: Result<(Store, Product), Error>)
    ensures r.Failure? <==> UpdateRefused(st, id, patch)
    ensures id !in st.products.rows ==> r == Failure(NotFound(NoSuch(ProductKind)))
    ensures id in st.products.rows && CategoryUnresolved(st, patch) ==> r == Failure(NotFound(NoSuch(CategoryKind)))
    ensures id in st.products.rows && !CategoryUnresolved(st, patch) && BrandUnresolved(st, patch) ==>
      r == Failure(NotFound(NoSuch(BrandKind)))
    ensures (r.Failure? && id in st.products.rows && !CategoryUnresolved(st, patch) && !BrandUnresolved(st, patch)) ==>
      r == Failure(NotFound(NoSuch(ImageKind)))
    ensures r.Success? ==>
      var (st', p') := r.value;
      var p := st.products.rows[id];
      && st'.products.rows == st.products.rows[id := p']
      && st'.brands == st.brands && st'.categories == st.categories
      && DetailsMerged(p.details, patch.details, p'.details)
      && p'.categoryId == patch.categoryId.GetOr(p.categoryId)
      && p'.brandId == patch.brandId.GetOr(p.brandId)
      && p'.creationDate == p.creationDate
      && p'.updateDate == Some(now)
      && (patch.images.None? ==> p'.images == p.images && st'.images == st.images)
      && (patch.images.Some? ==>
            && |p'.images| == |Kept(p.images, SubmittedIds(patch.images.value))| + |patch.images.value|
            && (forall x :: x in p.images ==> x in p'.images)
            && Reconcile(p.images, patch.images.value, st.images, id) == Success((p'.images, st'.images)))
  {
    if id !in st.products.rows then Failure(NotFound(NoSuch(ProductKind)))
    else if patch.categoryId.Some? && patch.categoryId.value !in st.categories.rows then
      Failure(NotFound(NoSuch(CategoryKind)))
    else if patch.brandId.Some? && patch.brandId.value !in st.brands.rows then
      Failure(NotFound(NoSuch(BrandKind)))
    else
      var p := st.products.rows[id];
      var (slots, images) :-
        match patch.images
        case None => Success((p.images, st.images))
        case Some(submitted) =>
          (var r := Reconcile(p.images, submitted, st.images, id);
           if r.Success? then ReconcileKeepsEveryEntry(p.images, submitted, st.images, id); r else r);
      var p' := Product(
        MergeDetails(p.details, patch.details),
        patch.categoryId.GetOr(p.categoryId),
        patch.brandId.GetOr(p.brandId),
        slots,
        p.creationDate,
        Some(now));
      Success((st.(products := Put(st.products, id, p'), images := images), p'))
  }

  /** A payload with every field null changes nothing but the update date. */
  lemma UpdateWithEmptyPatch(st: Store, id: int, now: Instant)
    requires id in st.products.rows
    ensures var p := st.products.rows[id];
      Update(st, id, ProductPatch(NoDetails, None, None, None), now)
        == Success((st.(products := Put(st.products, id, p.(updateDate := Some(now)))), p.(updateDate := Some(now))))
  {
  }

  // ---------------------------------------------------------------------------
  // createProduct

  /** A product as posted for creation. Brand and category are given by id;
      the update date is whatever the client sent, since creation does not
      set it. */
  datatype NewProduct = NewProduct(
    details: Details,
    categoryId: int,
    brandId: int,
    images: Option<seq<ImageInput>>,
    updateDate: Option<Instant>)

  /** Maps the posted images element-wise onto list entries: an image with an
      id must be stored and is re-attached to the new product unchanged; one
      without an id becomes a new image. */
  function Attach(images: map<int, Image>, inputs: seq<ImageInput>, owner: int): (r: Result<(seq<ImageSlot>, map<int, Image>), Error>)
    ensures r.Failure? ==> r.error == NotFound(NoSuch(ImageKind))
    ensures r.Success? ==> |r.value.0| == |inputs| && r.value.1.Keys == images.Keys
    decreases |inputs|
  {
    if inputs == [] then Success(([], images))
    else
      var (slots, attached) :- Attach(images, inputs[..|inputs| - 1], owner);
      var last := inputs[|inputs| - 1];
      match last.id
      case None => Success((slots + [Fresh(last.description, last.data)], attached))
      case Some(k) =>
        if k in attached then Success((slots + [Stored(k)], attached[k := attached[k].(product := owner)]))
        else Failure(NotFound(NoSuch(ImageKind)))
  }

  /** Attaching fails exactly when a posted id is not stored. */
  lemma {:induction false} AttachFailsIffUnresolved(images: map<int, Image>, inputs: seq<ImageInput>, owner: int)
    ensures Attach(images, inputs, owner).Failure? <==> Unresolved(inputs, images)
    decreases |inputs|
  {
    if inputs != [] {
      var prefix := inputs[..|inputs| - 1];
      AttachFailsIffUnresolved(images, prefix, owner);
      if Unresolved(prefix, images) {
        var i :| 0 <= i < |prefix| && prefix[i].id.Some? && prefix[i].id.value !in images;
        assert inputs[i] == prefix[i];
      }
    }
  }

  /** The list keeps the posted length and order: entry `i` is what posted
      image `i` becomes. */
  lemma {:induction false} AttachSlots(images: map<int, Image>, inputs: seq<ImageInput>, owner: int)
    requires Attach(images, inputs, owner).Success?
    ensures Attach(images, inputs, owner).value.0 == Slots(inputs)
    decreases |inputs|
  {
    if inputs != [] {
      var n := |inputs| - 1;
      var prefix := inputs[..n];
      AttachSlots(images, prefix, owner);
      var slots := Attach(images, inputs, owner).value.0;
      assert slots == Slots(prefix) + [SlotFor(inputs[n])];
      forall i | 0 <= i < |inputs| ensures slots[i] == SlotFor(inputs[i]) {
        if i < n {
          assert prefix[i] == inputs[i];
        }
      }
    }
  }

  /** The image table changes only in the owner of the re-attached images. */
  lemma {:induction false} AttachImageTable(images: map<int, Image>, inputs: seq<ImageInput>, owner: int, k: int)
    requires Attach(images, inputs, owner).Success?
    requires k in images
    ensures var attached := Attach(images, inputs, owner).value.1;
      attached[k] == if k in SubmittedIds(inputs) then images[k].(product := owner) else images[k]
    decreases |inputs|
  {
    if inputs != [] {
      var n := |inputs| - 1;
      var prefix := inputs[..n];
      AttachImageTable(images, prefix, owner, k);
      if k in SubmittedIds(inputs) && inputs[n].id != Some(k) {
        var i :| 0 <= i < |inputs| && inputs[i].id == Some(k);
        assert prefix[i] == inputs[i];
      }
    }
  }

  lemma AttachSlotsWhenSuccess(images: map<int, Image>, inputs: seq<ImageInput>, owner: int)
    ensures Attach(images, inputs, owner).Success? ==> Attach(images, inputs, owner).value.0 == Slots(inputs)
  {
    if Attach(images, inputs, owner).Success? {
      AttachSlots(images, inputs, owner);
    }
  }

  /** `ProductService.createProduct`. */
  function CreateProduct(st: Store, input: NewProduct, now: Instant): (r: Result<(Store, (int, Product)), Error>)
    ensures input.categoryId !in st.categories.rows ==> r == Failure(NotFound(NoSuch(CategoryKind)))
    ensures input.categoryId in st.categories.rows && input.brandId !in st.brands.rows ==>
      r == Failure(NotFound(NoSuch(BrandKind)))
    ensures r.Failure? <==>
      || input.categoryId !in st.categories.rows
      || input.brandId !in st.brands.rows
      || (input.images.Some? && Unresolved(input.images.value, st.images.rows))
    ensures input.categoryId in st.categories.rows && input.brandId in st.brands.rows && r.Failure? ==>
      r.error == NotFound(NoSuch(ImageKind))
    ensures r.Success? ==>
      var (st', (id, p)) := r.value;
      && id !in st.products.rows
      && st'.products.rows == st.products.rows[id := p]
      && st'.brands == st.brands && st'.categories == st.categories
      && st'.images.rows.Keys == st.images.rows.Keys
      && p.details == input.details
      && p.categoryId == input.categoryId && p.brandId == input.brandId
      && p.creationDate == Some(now) && p.updateDate == input.updateDate
      && p.images == (if input.images.Some? then Slots(input.images.value) else [])
  {
    if input.categoryId !in st.categories.rows then Failure(NotFound(NoSuch(CategoryKind)))
    else if input.brandId !in st.brands.rows then Failure(NotFound(NoSuch(BrandKind)))
    else
      var id := st.products.next;
      var inputs := input.images.GetOr([]);
      AttachFailsIffUnresolved(st.images.rows, inputs, id);
      AttachSlotsWhenSuccess(st.images.rows, inputs, id);
      var (slots, attached) :- Attach(st.images.rows, inputs, id);
      var p := Product(input.details, input.categoryId, input.brandId, slots, Some(now), input.updateDate);
      var (products, id') := Insert(st.products, p);
      Success((Store(products, Table(attached, st.images.next), st.brands, st.categories), (id', p)))
  }

  /** Creating a product leaves every image it was not posted with as it was. */
  lemma CreateLeavesUnpostedImages(st: Store, input: NewProduct, now: Instant, k: int)
    requires CreateProduct(st, input, now).Success?
    requires k in st.images.rows
    requires input.images.None? || k !in SubmittedIds(input.images.value)
    ensures var st' := CreateProduct(st, input, now).value.0;
      k in st'.images.rows && st'.images.rows[k] == st.images.rows[k]
  {
    AttachImageTable(st.images.rows, input.images.GetOr([]), st.products.next, k);
  }

  /** A posted image with an id is re-attached as stored: its description and
      data are not taken from the post, unlike in an update. */
  lemma CreateKeepsStoredImageContent(st: Store, input: NewProduct, now: Instant, k: int)
    requires CreateProduct(st, input, now).Success?
    requires input.images.Some? && k in SubmittedIds(input.images.value)
    ensures var (st', (id, _)) := CreateProduct(st, input, now).value;
      && k in st'.images.rows
      && st'.images.rows[k] == st.images.rows[k].(product := id)
  {
    AttachImageTable(st.images.rows, input.images.value, st.products.next, k);
  }

  // ---------------------------------------------------------------------------
  // deleteProduct and the lookups

  /** `ProductService.deleteProduct`. Owned image rows are left to the
      persistence layer's cascade, which is not part of this model. */
  function DeleteProduct(st: Store, id: int): (r: Result<Store, Error>)
    ensures r.Success? <==> id in st.products.rows
    ensures r.Failure? ==> r.error == NotFound(NoSuch(ProductKind))
    ensures r.Success? ==> r.value == st.(products := r.value.products) && r.value.products.rows == st.products.rows - {id}
  {
    if id !in st.products.rows then Failure(NotFound(NoSuch(ProductKind)))
    else Success(st.(products := Remove(st.products, id)))
  }

  /** `ProductService.findAll`: every product, or NotFound when there is none. */
  function FindAll(st: Store): (r: Result<map<int, Product>, Error>)
    ensures r.Failure? <==> |st.products.rows| == 0
    ensures r.Failure? ==> r.error == NotFound(NoneStored(ProductKind))
    ensures r.Success? ==> r.value == st.products.rows
  {
    if st.products.rows == map[] then Failure(NotFound(NoneStored(ProductKind))) else Success(st.products.rows)
  }

  /** `ProductService.findById`. */
  function FindById(st: Store, id: int): (r: Result<Product, Error>)
    ensures r.Success? <==> id in st.products.rows
    ensures r.Success? ==> r.value == st.products.rows[id]
    ensures r.Failure? ==> r.error == NotFound(NoSuch(ProductKind))
  {
    if id in st.products.rows then Success(st.products.rows[id]) else Failure(NotFound(NoSuch(ProductKind)))
  }

  /** `ProductService.findAllProductImages`: every image, or NotFound when there is none. */
  function FindAllProductImages(st: Store): (r: Result<map<int, Image>, Error>)
    ensures r.Failure? <==> |st.images.rows| == 0
    ensures r.Failure? ==> r.error == NotFound(NoneStored(ImageKind))
    ensures r.Success? ==> r.value == st.images.rows
  {
    if st.images.rows == map[] then Failure(NotFound(NoneStored(ImageKind))) else Success(st.images.rows)
  }

  /** `ProductService.findByIdProductImage`: the image's content. */
  function FindImageData(st: Store, id: int): (r: Result<Option<Blob>, Error>)
    ensures r.Success? <==> id in st.images.rows
    ensures r.Success? ==> r.value == st.images.rows[id].data
    ensures r.Failure? ==> r.error == NotFound(NoSuch(ImageKind))
  {
    if id in st.images.rows then Success(st.images.rows[id].data) else Failure(NotFound(NoSuch(ImageKind)))
  }

  // ---------------------------------------------------------------------------
  // Single-image operations

  /** `ProductService.createProductImage`: saves a new image owned by the
      product. The uploaded file is its content; the product's in-memory list
      is not touched. */
  function AddImage(st: Store, productId: int, description: Option<string>, file: Blob): (r: Result<(Store, (int, Image)), Error>)
    ensures r.Success? <==> productId in st.products.rows
    ensures r.Failure? ==> r.error == NotFound(NoSuch(ProductKind))
    ensures r.Success? ==>
      var (st', (id, img)) := r.value;
      && img == Image(description, Some(file), productId)
      && id !in st.images.rows
      && st'.images.rows == st.images.rows[id := img]
      && st' == st.(images := st'.images)
  {
    if productId !in st.products.rows then Failure(NotFound(NoSuch(ProductKind)))
    else
      var img := Image(description, Some(file), productId);
      var (images, id) := Insert(st.images, img);
      Success((st.(images := images), (id, img)))
  }

  /** `ProductService.updateProductImage`: the description changes only when
      one is given and the content only when a file is uploaded. The product
      id of the request is never consulted. */
  function UpdateProductImage(st: Store, productId: int, imageId: int, description: Option<string>, file: Option<Blob>)
    : (r: Result<(Store, Image), Error>)
    ensures r.Success? <==> imageId in st.images.rows
    ensures r.Failure? ==> r.error == NotFound(NoSuch(ImageKind))
    ensures r.Success? ==>
      var (st', img) := r.value;
      var stored := st.images.rows[imageId];
      && st'.images.rows == st.images.rows[imageId := img]
      && st' == st.(images := st'.images)
      && FieldMerged(stored.description, description, img.description)
      && FieldMerged(stored.data, file, img.data)
      && img.product == stored.product
  {
    if imageId !in st.images.rows then Failure(NotFound(NoSuch(ImageKind)))
    else
      var stored := st.images.rows[imageId];
      var img := stored.(description := Merge(stored.description, description), data := Merge(stored.data, file));
      Success((st.(images := Put(st.images, imageId, img)), img))
  }

  /** The product id passed to `updateProductImage` has no effect. */
  lemma UpdateProductImageIgnoresProduct(st: Store, a: int, b: int, imageId: int, description: Option<string>, file: Option<Blob>)
    ensures UpdateProductImage(st, a, imageId, description, file) == UpdateProductImage(st, b, imageId, description, file)
  {
  }

  /** The position of the first occurrence of `x`. */
  function FirstIndex(s: seq<ImageSlot>, x: ImageSlot): (i: nat)
    requires x in s
    ensures i < |s| && s[i] == x
    ensures forall j :: 0 <= j < i ==> s[j] != x
  {
    if s[0] == x then 0 else 1 + FirstIndex(s[1..], x)
  }

  /** `r` is `s` with its first occurrence of `x` cut out and everything else
      kept in order. */
  predicate FirstRemoved(s: seq<ImageSlot>, x: ImageSlot, r: seq<ImageSlot>) {
    exists i :: 0 <= i < |s| && s[i] == x && x !in s[..i] && r == s[..i] + s[i + 1..]
  }

  /** Cutting out the first occurrence leaves exactly one possible list. */
  lemma FirstRemovedUnique(s: seq<ImageSlot>, x: ImageSlot, r1: seq<ImageSlot>, r2: seq<ImageSlot>)
    requires FirstRemoved(s, x, r1) && FirstRemoved(s, x, r2)
    ensures r1 == r2
  {
    var i :| 0 <= i < |s| && s[i] == x && x !in s[..i] && r1 == s[..i] + s[i + 1..];
    var j :| 0 <= j < |s| && s[j] == x && x !in s[..j] && r2 == s[..j] + s[j + 1..];
    assert i == j;
  }

  /** `List.remove(Object)`: drops the first occurrence only. */
  function RemoveFirst(s: seq<ImageSlot>, x: ImageSlot): (r: seq<ImageSlot>)
    requires x in s
    ensures FirstRemoved(s, x, r)
    ensures |r| == |s| - 1
    ensures multiset(r) == multiset(s) - multiset{x}
  {
    var i := FirstIndex(s, x);
    assert s == s[..i] + [s[i]] + s[i + 1..];
    s[..i] + s[i + 1..]
  }

  /** `ProductService.deleteProductImage`: the product and the image must
      exist and the image must be in the product's list; then one occurrence
      of it is removed from the list. The image row itself stays. */
  function DeleteProductImage(st: Store, productId: int, imageId: int): (r: Result<Store, Error>)
    ensures productId !in st.products.rows ==> r == Failure(NotFound(NoSuch(ProductKind)))
    ensures productId in st.products.rows && imageId !in st.images.rows ==> r == Failure(NotFound(NoSuch(ImageKind)))
    ensures (productId in st.products.rows && imageId in st.images.rows
             && Stored(imageId) !in st.products.rows[productId].images) ==> r == Failure(NotFound(NotInProduct))
    ensures r.Success? <==>
      productId in st.products.rows && imageId in st.images.rows && Stored(imageId) in st.products.rows[productId].images
    ensures r.Success? ==>
      var st' := r.value;
      var p := st.products.rows[productId];
      && st' == st.(products := st'.products)
      && productId in st'.products.rows
      && st'.products.rows == st.products.rows[productId := st'.products.rows[productId]]
      && st'.products.rows[productId] == p.(images := st'.products.rows[productId].images)
      && FirstRemoved(p.images, Stored(imageId), st'.products.rows[productId].images)
      && |st'.products.rows[productId].images| == |p.images| - 1
      && multiset(st'.products.rows[productId].images) == multiset(p.images) - multiset{Stored(imageId)}
  {
    if productId !in st.products.rows then Failure(NotFound(NoSuch(ProductKind)))
    else if imageId !in st.images.rows then Failure(NotFound(NoSuch(ImageKind)))
    else
      var p := st.products.rows[productId];
      if Stored(imageId) !in p.images then Failure(NotFound(NotInProduct))
      else
        var p' := p.(images := RemoveFirst(p.images, Stored(imageId)));
        Success(st.(products := Put(st.products, productId, p')))
  }

  /** Deleting an image from a product that lists it only once leaves the
      product without it, and every other entry stays. */
  lemma DeleteProductImageRemovesIt(st: Store, productId: int, imageId: int)
    requires DeleteProductImage(st, productId, imageId).Success?
    requires multiset(st.products.rows[productId].images)[Stored(imageId)] == 1
    ensures var images' := DeleteProductImage(st, productId, imageId).value.products.rows[productId].images;
      && Stored(imageId) !in images'
      && forall x :: x in st.products.rows[productId].images && x != Stored(imageId) ==> x in images'
  {
    var images := st.products.rows[productId].images;
    var images' := DeleteProductImage(st, productId, imageId).value.products.rows[productId].images;
    FirstRemovedOnce(images, Stored(imageId), images');
  }

  /** Cutting out an entry that occurs once leaves no occurrence of it and
      every other entry. */
  lemma FirstRemovedOnce(s: seq<ImageSlot>, x: ImageSlot, r: seq<ImageSlot>)
    requires FirstRemoved(s, x, r)
    requires multiset(s)[x] == 1
    ensures x !in r
    ensures forall y :: y in s && y != x ==> y in r
  {
    var i :| 0 <= i < |s| && s[i] == x && x !in s[..i] && r == s[..i] + s[i + 1..];
    assert s == s[..i] + [x] + s[i + 1..];
    NoLaterOccurrence(s[..i], x, s[i + 1..]);
    FirstRemovedKeepsOthers(s, x, r);
  }

  /** Cutting out an occurrence keeps every entry that differs from it. */
  lemma FirstRemovedKeepsOthers(s: seq<ImageSlot>, x: ImageSlot, r: seq<ImageSlot>)
    requires FirstRemoved(s, x, r)
    ensures forall y :: y in s && y != x ==> y in r
  {
    var i :| 0 <= i < |s| && s[i] == x && x !in s[..i] && r == s[..i] + s[i + 1..];
    assert s == s[..i] + [x] + s[i + 1..];
  }

  /** An entry that occurs once, and not before position `|pre|`, does not
      occur after it either. */
  lemma NoLaterOccurrence(pre: seq<ImageSlot>, x: ImageSlot, post: seq<ImageSlot>)
    requires x !in pre
    requires multiset(pre + [x] + post)[x] == 1
    ensures x !in post
  {
    assert multiset(pre + [x] + post) == multiset(pre) + multiset{x} + multiset(post);
    assert multiset(pre)[x] == 0;
  }
}

=== FILE: scenarios.dfy ===
/** Concrete runs of the services on small stores: the walk-through of
    re-pricing a stored product, and the duplicate brand name. */
module Scenarios {
  import opened Wrappers
  import opened Catalog
  import ProductService
  import BrandService
  import Classification

  const Empty: Store := Store(Table(map[], 1), Table(map[], 1), Table(map[], 1), Table(map[], 1))

  /** Creating "Acme" twice: the second call is refused as a duplicate and the
      first left exactly one brand. */
  lemma DuplicateBrandRefused()
    ensures var first := BrandService.CreateBrand(Empty, Classifier(Some("Acme"), Some(true)));
      && first.Success?
      && first.value.0.brands.rows == map[1 := Classifier(Some("Acme"), Some(true))]
      && BrandService.CreateBrand(first.value.0, Classifier(Some("Acme"), Some(true))) == Failure(DuplicateName)
  {
    var first := BrandService.CreateBrand(Empty, Classifier(Some("Acme"), Some(true)));
    assert Classification.Taken(first.value.0.brands, "Acme") by {
      assert first.value.0.brands.rows[1].description == Some("Acme");
    }
  }

  /** A stored product with stored image 1 in its list, for the update scenarios. */
  const Shop: Store := Store(
    Table(map[1 := Product(ProductService.NoDetails.(price := Some(9.99)), 1, 1, [Stored(1)], Some(100), Some(100))], 2),
    Table(map[1 := Image(Some("front"), None, 1)], 2),
    Table(map[1 := Classifier(Some("Acme"), Some(true))], 2),
    Table(map[1 := Classifier(Some("Books"), Some(true))], 2))

  /** Re-pricing changes the price and the update date only: every other
      field of the product, and every other part of the store, is as before. */
  lemma RepriceScenario()
    ensures var r := ProductService.Update(Shop, 1, ProductService.ProductPatch(ProductService.NoDetails.(price := Some(8.99)), None, None, None), 200);
      && r.Success?
      && r.value.1 == Shop.products.rows[1].(details := ProductService.NoDetails.(price := Some(8.99)), updateDate := Some(200))
      && r.value.0 == Shop.(products := Put(Shop.products, 1, r.value.1))
  {
  }
}

=== FILE: text.dfy ===
/** The part of `java.lang.String` the services rely on: `trim()` and the
    "blank after trim" test used by the description validation. */
module Text {

  /** `String.trim` strips every leading and trailing character whose code is
      at most U+0020 (space and all control characters). */
  predicate TrimStrips(c: char) {
    c <= ' '
  }

  /** How many characters `trim` strips from the front. */
  function Leading(s: string): (n: nat)
    ensures n <= |s|
    ensures forall i :: 0 <= i < n ==> TrimStrips(s[i])
    ensures n < |s| ==> !TrimStrips(s[n])
  {
    if |s| > 0 && TrimStrips(s[0]) then
      var n := 1 + Leading(s[1..]);
      assert forall i :: 1 <= i < n ==> s[i] == s[1..][i - 1];
      n
    else 0
  }

  /** How many characters `trim` strips from the back. */
  function Trailing(s: string): (n: nat)
    ensures n <= |s|
    ensures forall i :: |s| - n <= i < |s| ==> TrimStrips(s[i])
    ensures n < |s| ==> !TrimStrips(s[|s| - n - 1])
  {
    if |s| > 0 && TrimStrips(s[|s| - 1]) then
      var n := 1 + Trailing(s[..|s| - 1]);
      assert forall i :: |s| - n <= i < |s| - 1 ==> s[i] == s[..|s| - 1][i];
      n
    else 0
  }

  /** `s.trim()`: what is left once both runs are stripped. The result is a
      slice of `s` that leaves out only stripped characters and neither starts
      nor ends with one, which pins it down. */
  function Trim(s: string): (r: string)
    ensures exists a, b ::
      && 0 <= a <= b <= |s|
      && r == s[a..b]
      && (forall i :: 0 <= i < a || b <= i < |s| ==> TrimStrips(s[i]))
    ensures |r| > 0 ==> !TrimStrips(r[0]) && !TrimStrips(r[|r| - 1])
  {
    var a := Leading(s);
    var t := Trailing(s[a..]);
    TrailingOfSuffix(s, a, t);
    SliceBounded(s, a, |s| - t);
    s[a..|s| - t]
  }

  /** The trailing run of a suffix of `s` is a trailing run of `s`. */
  lemma TrailingOfSuffix(s: string, a: nat, t: nat)
    requires a <= |s| && t == Trailing(s[a..])
    ensures a + t <= |s|
    ensures forall i :: |s| - t <= i < |s| ==> TrimStrips(s[i])
    ensures a + t < |s| ==> !TrimStrips(s[|s| - t - 1])
  {
    var rest := s[a..];
    forall i | |s| - t <= i < |s|
      ensures TrimStrips(s[i])
    {
      assert s[i] == rest[i - a];
    }
    if a + t < |s| {
      assert s[|s| - t - 1] == rest[|rest| - t - 1];
    }
  }

  /** A slice whose two ends are not stripped and outside which everything is
      stripped is what `Trim`'s contract describes. */
  lemma SliceBounded(s: string, a: nat, b: nat)
    requires a <= b <= |s|
    requires forall i :: 0 <= i < a ==> TrimStrips(s[i])
    requires forall i :: b <= i < |s| ==> TrimStrips(s[i])
    requires a < b ==> !TrimStrips(s[a]) && !TrimStrips(s[b - 1])
    ensures exists a', b' ::
      && 0 <= a' <= b' <= |s|
      && s[a..b] == s[a'..b']
      && (forall i :: 0 <= i < a' || b' <= i < |s| ==> TrimStrips(s[i]))
    ensures |s[a..b]| > 0 ==> !TrimStrips(s[a..b][0]) && !TrimStrips(s[a..b][|s[a..b]| - 1])
  {
    assert
      && 0 <= a <= b <= |s|
      && s[a..b] == s[a..b]
      && (forall i :: 0 <= i < a || b <= i < |s| ==> TrimStrips(s[i]));
  }

  /** `s.trim().isEmpty()`. */
  predicate IsBlank(s: string) {
    |Trim(s)| == 0
  }

  /** A string is blank exactly when every one of its characters is stripped by
      `trim`; in particular the empty string is blank. */
  lemma BlankIffAllStripped(s: string)
    ensures IsBlank(s) <==> forall i :: 0 <= i < |s| ==> TrimStrips(s[i])
  {
    var n := Leading(s);
    var rest := s[n..];
    if n < |s| {
      assert rest[0] == s[n];
      assert Trailing(rest) < |rest|;
    }
  }
}

=== FILE: wrappers.dfy ===
/** Nullable values and failure-carrying results, the two shapes every catalog
    operation is written in. */
module Wrappers {

  /** A Java reference that may be null: `None` stands for null. */
  datatype Option<+T> = None | Some(value: T) {

    /** The present value, or `default` when absent. */
    function GetOr(default: T): T {
      match this
      case Some(v) => v
      case None => default
    }
  }

  /** The outcome of a service call: a value, or the exception it throws. */
  datatype Result<+T, +E> = Success(value: T) | Failure(error: E) {

    predicate IsFailure() {
      Failure?
    }

    function PropagateFailure<U>(): Result<U, E>
      requires Failure?
    {
      Failure(error)
    }

    function Extract(): T
      requires Success?
    {
      value
    }
  }
}
